=== FILE: README.md ===
# Happy Invest ledger — a Dafny model

Happy Invest is an Express API over a Firebase tree of users, teams, recharge and
withdrawal requests, plan investments, gift codes and per-user transaction logs.
Every handler reads a record, applies a small decision rule and writes back. This
project models those decision rules as pure functions from a store and a request
to a `Step` (the answer, `Ok` or `Err`, together with the store left behind), and
proves what each rule promises.

- `outcomes.dfy` — `Option`, the refusal kinds and `Result`. `InvalidRequest` covers the
  "missing field" and "amount below minimum" messages of several handlers; the other
  kinds each stand for one message.
- `ledger.dfy` — the records (`User`, `TeamEntry`, `Recharge`, `Withdrawal`,
  `Investment`, `GiftCode`, `Tx`) and the `Store` of maps that stands in for the database.
- `plans.dfy` — the two copies of the plan catalog (the one shown, the one charged).
- `registration.dfy` — field validation, the initial user record, and the
  referrer's team count and team entry.
- `recharges.dfy`, `withdrawals.dfy` — requests and their operator resolution.
- `investments.dfy` — buying a plan.
- `checkins.dfy` — the daily check-in with its streak and reward, and the status query.
  `CheckIn` is the handler as evidently intended; `CheckInAsWritten` is the handler as
  written, whose update cannot be stored (see "Findings").
- `gifts.dfy` — single-use gift codes.
- `reports.dfy` — income totals, income-record filters, team counts by level.
- `laws.dfy` — laws across handlers: no handler makes a balance negative,
  check-ins and gift codes count as income while spending does not, a referral
  shows up in the referrer's team statistics.

Modelling choices:
- Dates are whole day numbers and amounts are integers. Ids and referral codes
  that the handlers generate from the clock or a random source are parameters.
- An absent request field is the empty string, which JavaScript also treats as false.
  The exceptions are listed under "Left out": a field whose absence reaches a database
  write makes that write fail.
- A status update sent to a withdrawal or recharge id that holds no record
  creates a record with only the written fields. The model keeps such a record
  as `WithdrawalStub` / `RechargeStub`.
- When a handler reads a user that does not exist and then uses the user's
  fields, the handler throws and answers 500. The model gives `Err(ServerError)`.
  Writes made before that point are kept.
- Registration looks up the holders of the referral code after the new user has
  been saved. The lookup lists the holders in key order. The handler loops over
  them with an asynchronous callback, and the database library's loop stops as
  soon as a callback returns something truthy. A promise is truthy, so only the
  first holder in key order is credited. The model credits that one holder
  (`Registration.FirstHolder`). This can be the new user itself, when its
  generated code equals the code it signed up with and its id comes first.
- Resolving a withdrawal does not look at its current status. Rejecting twice
  refunds twice, and approving a recharge twice credits it twice. The model
  keeps this behaviour and states it as lemmas (`Withdrawals.RejectTwiceRefundsTwice`,
  `Recharges.ApproveTwiceCreditsTwice`).
- `api/index.js` has no daily-income payout, locked balance, referral commission,
  anti-cheat ban, daily withdrawal cap or bank-detail check. None is modelled.

## Model

| member | source | states |
|---|---|---|
| `Plans.FindPlan` | api/index.js:375-378 | a plan is found exactly for the catalog ids, and the plan found is that id's catalog entry, with positive price, term and daily income, and total income = daily income × term |
| `Plans.PlanLaws` | api/index.js:364-372 | every purchasable plan satisfies total income = daily income × duration, with positive price, duration and daily income |
| `Plans.CatalogsAgree` | api/index.js:334-372 | the shown and the charged catalogs have the same plan ids and agree on name, price, duration, daily income and total income for every id |
| `Withdrawals.RequestWithdrawal` | api/index.js:242-305 | accepted iff user id present, amount ≥ 100, user exists and balance ≥ amount, each refusal with its own error and no change; on success balance falls and withdrawn rises by exactly the amount (balance stays ≥ 0), nothing else of any user changes, exactly one pending request is added at the new id and one `withdrawal_request` entry is appended to this user's log, and every other table and every other log is unchanged |
| `Withdrawals.ProcessWithdrawal` | api/index.js:804-843 | the status and operator are always written (a missing id gets a partial record holding only that status and operator, with no user or amount) and no other withdrawal changes; any status but `rejected` leaves every user alone; `rejected` refunds the amount to the balance and takes it off `withdrawn`, or answers a server error with users unchanged when the record has no existing user; no table other than users and withdrawals ever changes |
| `Withdrawals.RejectRestoresUser` | api/index.js:822-835 | a successful request followed by rejection of that request restores every user record exactly to its pre-request value |
| `Withdrawals.OtherResolutionKeepsDebit` | api/index.js:815-819 | a request resolved with any status other than `rejected` keeps the debited balance and the raised withdrawn total |
| `Withdrawals.RejectTwiceRefundsTwice` | api/index.js:815-835 | with no prior-status check, rejecting the same request twice credits the balance twice and lowers `withdrawn` twice |
| `Recharges.RequestRecharge` | api/index.js:205-239 | accepted iff user id present and amount ≥ 100; stores a pending request with that user and amount, payment method defaulting to `manual`, the given reference or none when none is given, and the request day; no table other than recharges ever changes |
| `Recharges.ApproveRecharge` | api/index.js:755-801 | the request is always marked approved by the operator (a missing id gets a partial record holding only the approved status and operator, with no user or amount); if the named user exists, balance and recharge balance both rise by exactly the given amount, nothing else of any user changes, and one `recharge` entry is appended to that user's log; otherwise a server error with users and logs unchanged; withdrawals, teams, investments and gift codes never change |
| `Recharges.ApproveTwiceCreditsTwice` | api/index.js:766-783 | with no prior-status check, approving twice credits balance and recharge balance twice |
| `Investments.Purchase` | api/index.js:354-439 | accepted iff user and plan ids present, plan in the catalog, user exists and balance ≥ price, each refusal with its own error and no change; on success balance falls by exactly the price (stays ≥ 0), one active investment is added under the new id with the plan's name, price, daily and total income, days remaining = duration, total earned 0 and a term ending duration days later, one `investment` entry is appended to this user's log, and every other holding, log and table is unchanged |
| `Checkins.CheckIn` | api/index.js:459-530 | the handler as intended, with the nested check-in fields written by path: refused with no change when the id is missing, the user is unknown or already checked in today; otherwise the streak continues from yesterday (+1) or restarts at 1, the reward is 500 when the streak is a multiple of 7 and 50 otherwise, the balance rises by exactly the reward, the last check-in day becomes today, one `checkin` entry is appended to this user's log, and no other user, log or table changes |
| `Checkins.CheckInAsWritten` | api/index.js:459-530 | the handler as written: the same three refusals, and a server error for every request that passes them, because the dotted-key update at 502-506 is refused before anything is written; the store never changes |
| `Checkins.DottedKeysRefused` | api/index.js:502-506 | a first check-in by a user with no earlier one: the intended handler accepts it and the status query reports it, the handler as written answers a server error and the status query does not report it |
| `Checkins.CheckinStatus` | api/index.js:533-553 | reports checked-in exactly when the user exists and last checked in on the queried day; the streak is the stored one, and 0 for an unknown user |
| `Checkins.OncePerDay` | api/index.js:533-553 | with the intended handler, after a successful check-in the status query for that day reports checked-in with the new streak, and a second check-in that day is refused and changes nothing |
| `Checkins.ConsecutiveCheckins` | api/index.js:484-506 | with the intended handler, check-ins on n consecutive days all succeed, extend the carried streak by n, raise the balance by exactly the rewards of the streak values passed, and change no other user |
| `Checkins.FreshWeek` | api/index.js:496-499 | with the intended handler, seven daily check-ins from a broken streak end on streak 7 and pay 6 × 50 + 500 |
| `Checkins.AsWrittenNeverChecksIn` | api/index.js:502-506 | with the handler as written, any number of daily check-ins leaves the store exactly as it was, so no reward is paid and the status query never changes its answer |
| `Gifts.Redeem` | api/index.js:558-613 | accepted iff ids present, code known and `active`, user exists; unknown code, used code and missing user are refused with no change; success credits exactly the code amount, marks that code (only) used by this user and appends one `gift_code` entry to this user's log, and no other user, log or table changes |
| `Gifts.SingleUse` | api/index.js:572-590 | once a code is redeemed, any later redemption by anyone is refused as used and changes nothing |
| `Registration.TrimStart` | api/index.js:86 | the result is the suffix of the name after its leading JavaScript white space, and starts with a non-space |
| `Registration.TrimEnd` | api/index.js:86 | the result is the prefix of the name before its trailing JavaScript white space, and ends with a non-space |
| `Registration.TrimIdempotent` | api/index.js:86 | trimming a trimmed name changes nothing |
| `Registration.Utf16Length` | api/index.js:68 | the JavaScript length of a string lies between its character count and twice it, and equals it when no character is outside the basic plane |
| `Registration.Validate` | api/index.js:60-70 | passes iff name present, phone exactly ten decimal digits and password at least six UTF-16 units long; absent fields, bad phone and short password each get their own error in that order |
| `Registration.FirstHolder` | api/index.js:109-111 | none exactly when no user holds the code; otherwise a holder of the code that comes first in key order among all holders |
| `Registration.FirstExists` | api/index.js:109-111 | every non-empty set of ids has one and only one first id in key order, so the first holder is well defined |
| `Registration.CreditReferrer` | api/index.js:107-127 | with no holder nothing changes; otherwise only the first holder changes: its team count rises by one and its team gains the new member's entry; every other user and team, and every other table, is unchanged |
| `Registration.Register` | api/index.js:55-142 | accepted iff the fields validate and the phone is not registered, otherwise the matching error and no change; the new user is stored under its id with that id, zero balances, status active, level 1, streak 0, a trimmed name, the registration day as join day, no bank details, its own code, the referral link built from that code, and the code it signed up with (none without one); with a referral code that someone holds, exactly the first holder (possibly the new user) gets team count + 1 and a level-1 team entry for the new user; every other user and team, and every other table, is unchanged |
| `Reports.Income` | api/index.js:675-684 | a log without income entries totals zero; with non-negative amounts, today's income is between zero and the total |
| `Reports.IncomeRecords` | api/index.js:703-708 | each record occurs in the result exactly as often as in the log when it passes the filter and not at all otherwise; an unknown filter keeps the whole log |
| `Reports.RecordsAreTheMatches` | api/index.js:703-708 | a record is listed exactly when it is in the log and passes the filter |
| `Reports.IncomeIsFilteredRecords` | api/index.js:675-708 | the income total equals the sum of the `daily`, `commission` and `gift` filtered records |
| `Reports.IncomeAfterAppend` | api/index.js:678-684 | appending a record raises the totals by its amount exactly when it is of an income type (today's total only when it is dated today) |
| `Reports.CountLevels` | api/index.js:625-630 | the level counts never exceed the team size, add up to it when every member is at level 1, 2 or 3, and are all zero for an empty team |
| `Reports.NewMemberCounted` | api/index.js:625-630 | adding a new member at level 1, 2 or 3 raises that level's count by one and leaves the others; a member at any other level changes no count; with the empty team's zeros this fixes every count |
| `Laws.WithdrawalKeepsHealthy` | api/index.js:256-266 | a withdrawal request never makes a balance negative |
| `Laws.ResolutionKeepsHealthy` | api/index.js:822-835 | resolving a withdrawal never makes a balance negative |
| `Laws.ApprovalKeepsHealthy` | api/index.js:777-783 | approving a non-negative recharge amount never makes a balance negative |
| `Laws.RechargeRequestKeepsHealthy` | api/index.js:215-227 | a recharge request never makes a balance negative |
| `Laws.PurchaseKeepsHealthy` | api/index.js:386-392 | a purchase never makes a balance negative |
| `Laws.CheckinKeepsHealthy` | api/index.js:501-506 | a check-in by the intended handler never makes a balance negative (the handler as written changes nothing) |
| `Laws.RedeemKeepsHealthy` | api/index.js:582-590 | redeeming a gift code never makes a balance negative |
| `Laws.RegisterKeepsHealthy` | api/index.js:84-101 | registration never makes a balance negative |
| `Laws.CheckinIsIncome` | api/index.js:509-516 | with the intended handler, a check-in's reward adds exactly that amount to the income total and to today's income |
| `Laws.GiftIsIncome` | api/index.js:593-600 | a redeemed code's amount adds exactly that amount to the income total |
| `Laws.WithdrawalIsNotIncome` | api/index.js:284-291 | a withdrawal request leaves the income totals unchanged |
| `Laws.PurchaseIsNotIncome` | api/index.js:418-426 | a plan purchase leaves the income totals unchanged |
| `Laws.ReferralCounted` | api/index.js:107-127 | when an existing user comes first in key order among the holders of the code (the new user included), an accepted registration with that code raises its team count by one and its level-1 team statistic by one |

## Left out

- Firebase set-up, environment variables and the database calls: the store is an immutable value of maps.
- Express routing, CORS, the 404 and error middleware and server start-up: HTTP plumbing.
- Login, the user read, the user-investments read, team members, withdrawal history, the admin user list and the pending lists: plain reads with no decision rule.
- Saving bank details: a plain write outside the ledger rules.
- Operator password checks on the admin handlers: authentication, not ledger logic.
- Id and referral-code generation from `Date.now` and `Math.random`: these are parameters.
- Timestamps: `joinDate`, `startDate`/`endDate`, `approvedAt`, `processedAt`, `usedAt` and log dates are day numbers or are dropped. Local-time calendar days are not modelled.
- The income-records sort by date, newest first: it needs full timestamps. The model keeps log order.
- `Reports.Income`: sums log entries in log order. The source sums the values of a keyed map; the totals do not depend on the order.
- Transaction ids: each log is an append-only sequence. The source writes entries under generated keys, so two writes with the same key would overwrite one another.
- Amounts: `parseFloat` and string-versus-number mixing in the request bodies are not modelled. Amounts are integers.
- A missing `bankDetails` in a withdrawal request: the database library refuses to store an undefined field after the balance was already debited. This library behaviour is not modelled; the model always receives a bank-details string.
- Ids inside database paths are treated as ordinary keys. The model leaves out three kinds of id that are not: an empty or absent id (`users/`, `users/undefined`) and an id containing `/` both address other nodes of the tree; an id containing `.`, `#`, `$`, `[` or `]` makes `db.ref` throw, so the handler answers 500. For example, redeeming gift code `a.b` answers a server error at api/index.js:567, where the model answers `InvalidGiftCode`. Checking in as user `a.b` answers 500 at api/index.js:467-468, where the model answers `UserNotFound`.
- Plan ids that are inherited object properties (`constructor`, `toString`): the source's lookup would find a non-plan value. The model's catalog holds only the nine plans.
- The lack of atomicity between separate writes: the model applies each handler's writes in sequence. The single referral update runs after the registration write, as the asynchronous callback does.
- `Registration.FirstHolder`: the database orders equal-code holders by key, putting keys that read as 32-bit integers first in numeric order and comparing the rest by UTF-16 code units. The model compares keys by code points, which agrees with UTF-16 order except when characters above U+FFFF meet characters from U+E000 to U+FFFF.
- An absent `status` in process-withdrawal: the database library refuses the undefined field, the handler answers a server error and nothing is written. The model always receives a status string.
- Team statistics' recharge fields: they are the constant zero.
- Non-string request fields (a numeric phone, a numeric name): loose typing, not modelled.

## Findings

| source | as written | input that shows it | evidently intended | confidence | as-written member | corrected member |
|---|---|---|---|---|---|---|
| api/index.js:502-506 | the check-in update names the nested fields with dotted keys (`'dailyCheckin.lastCheckin'`, `'dailyCheckin.streak'`); the database client refuses keys containing `.` before writing, so the handler answers 500 and credits nothing | any user who has not checked in today, e.g. one who never checked in | the nested fields written by path (`dailyCheckin/lastCheckin`, `dailyCheckin/streak`): the reward is credited, the day and streak are recorded and the log entry is written | high that the update is refused, by the database client's key rules; not executed | `Checkins.CheckInAsWritten`, with `Checkins.DottedKeysRefused` and `Checkins.AsWrittenNeverChecksIn` | `Checkins.CheckIn`, with `Checkins.ConsecutiveCheckins` and `Checkins.FreshWeek` |

=== FILE: checkins.dfy ===
/** The daily check-in: at most one per calendar day, a streak that continues
    from yesterday or starts again at one, and a reward of 50 that becomes 500
    on every seventh day of a streak. */
module Checkins {
  import opened Outcomes
  import opened Ledger

  const DailyReward := 50
  const WeeklyReward := 500
  /** Every streak value that is a multiple of this pays the weekly reward. */
  const Week: nat := 7

  datatype Receipt = Receipt(reward: int, streak: nat, newBalance: int)

  /** What the status query answers. */
  datatype Status = Status(checkedInToday: bool, streak: nat)

  /** The streak a check-in on `today` reaches, given the last check-in day and the streak so far. */
  function NextStreak(c: Checkin, today: int): nat
  {
    if c.last == Some(today - 1) then c.streak + 1 else 1
  }

  /** The reward paid for reaching `streak`. */
  function Reward(streak: nat): int
  {
    if streak % Week == 0 then WeeklyReward else DailyReward
  }

  /** `userId` checks in on day `today`; `txId` is the generated transaction id.
      This is the handler as intended: its update writes the nested check-in
      fields by path (`dailyCheckin/lastCheckin`, `dailyCheckin/streak`).
      `CheckInAsWritten` is the handler with the dotted keys it actually sends. */
  function CheckIn(s: Store, userId: UserId, today: int, txId: string): (st: Step<Receipt>)
    ensures st.result.Ok? <==> userId != "" && userId in s.users && s.users[userId].checkin.last != Some(today)
    ensures userId == "" ==> st.result == Err(InvalidRequest)
    ensures userId != "" && userId !in s.users ==> st.result == Err(UserNotFound)
    ensures userId != "" && userId in s.users && s.users[userId].checkin.last == Some(today) ==>
      st.result == Err(AlreadyCheckedIn)
    ensures st.result.Err? ==> st.store == s
    ensures st.store.(users := s.users, transactions := s.transactions) == s
    ensures st.result.Ok? ==>
      var before := s.users[userId];
      var r := st.result.value;
      && OthersUnchanged(s, st.store, userId)
      && (before.checkin.last == Some(today - 1) ==> r.streak == before.checkin.streak + 1)
      && (before.checkin.last != Some(today - 1) ==> r.streak == 1)
      && (r.streak % 7 == 0 ==> r.reward == 500)
      && (r.streak % 7 != 0 ==> r.reward == 50)
      && st.store.users[userId].balance == before.balance + r.reward == r.newBalance
      && st.store.users[userId].checkin == Checkin(Some(today), r.streak)
      && st.store.users[userId].(balance := 0, checkin := before.checkin) == before.(balance := 0)
      && st.store.transactions == s.transactions[userId := TxsOf(s, userId) + [Tx(txId, KindCheckin, r.reward, today, None, None, Some(r.streak), None)]]
  {
    if userId == "" then Step(Err(InvalidRequest), s)
    else if userId !in s.users then Step(Err(UserNotFound), s)
    else
      var u := s.users[userId];
      if u.checkin.last == Some(today) then Step(Err(AlreadyCheckedIn), s)
      else
        var streak := NextStreak(u.checkin, today);
        var reward := Reward(streak);
        var updated := s.(users := s.users[userId := u.(balance := u.balance + reward, checkin := Checkin(Some(today), streak))]);
        Step(Ok(Receipt(reward, streak, u.balance + reward)),
             Record(updated, userId, Tx(txId, KindCheckin, reward, today, None, None, Some(streak), None)))
  }

  /** The handler as written. Its update names the nested fields with dotted
      keys (`dailyCheckin.lastCheckin`), which the database client refuses
      before it writes anything. So every request that passes the guards ends
      in a server error, and the store is left as it was. */
  function CheckInAsWritten(s: Store, userId: UserId, today: int, txId: string): (st: Step<Receipt>)
    ensures st.store == s
    ensures userId == "" ==> st.result == Err(InvalidRequest)
    ensures userId != "" && userId !in s.users ==> st.result == Err(UserNotFound)
    ensures userId != "" && userId in s.users && s.users[userId].checkin.last == Some(today) ==>
      st.result == Err(AlreadyCheckedIn)
    ensures userId != "" && userId in s.users && s.users[userId].checkin.last != Some(today) ==>
      st.result == Err(ServerError)
  {
    var intended := CheckIn(s, userId, today, txId);
    if intended.result.Ok? then Step(Err(ServerError), s) else intended
  }

  /** A first check-in by a user who never checked in: the intended handler
      accepts it and the status query then reports it, while the handler as
      written answers a server error and the status query still reports none. */
  lemma DottedKeysRefused(s: Store, userId: UserId, today: int, txId: string)
    requires userId != "" && userId in s.users && s.users[userId].checkin.last.None?
    ensures CheckIn(s, userId, today, txId).result.Ok?
    ensures CheckinStatus(CheckIn(s, userId, today, txId).store, userId, today).checkedInToday
    ensures CheckInAsWritten(s, userId, today, txId).result == Err(ServerError)
    ensures !CheckinStatus(CheckInAsWritten(s, userId, today, txId).store, userId, today).checkedInToday
  {
  }

  /** The status query for day `today`; a user without a record reads as never checked in. */
  function CheckinStatus(s: Store, userId: UserId, today: int): (r: Status)
    ensures r.checkedInToday <==> userId in s.users && s.users[userId].checkin.last == Some(today)
    ensures r.streak == if userId in s.users then s.users[userId].checkin.streak else 0
  {
    if userId in s.users
    then Status(s.users[userId].checkin.last == Some(today), s.users[userId].checkin.streak)
    else Status(false, 0)
  }

  /** After a successful check-in the status query reports it for that day, with
      the streak the check-in answered, and a second check-in that day is refused
      without changing anything. */
  lemma OncePerDay(s: Store, userId: UserId, today: int, tx1: string, tx2: string)
    requires CheckIn(s, userId, today, tx1).result.Ok?
    ensures CheckinStatus(CheckIn(s, userId, today, tx1).store, userId, today)
            == Status(true, CheckIn(s, userId, today, tx1).result.value.streak)
    ensures CheckIn(CheckIn(s, userId, today, tx1).store, userId, today, tx2).result == Err(AlreadyCheckedIn)
    ensures CheckIn(CheckIn(s, userId, today, tx1).store, userId, today, tx2).store == CheckIn(s, userId, today, tx1).store
  {
  }

  /** Check-ins by `userId` on `n` consecutive days starting at day `from`. */
  function CheckinRun(s: Store, userId: UserId, from: int, n: nat, txId: string): Store
    decreases n
  {
    if n == 0 then s else CheckinRun(CheckIn(s, userId, from, txId).store, userId, from + 1, n - 1, txId)
  }

  /** The rewards paid for streak values `k + 1` up to `k + n`. */
  function RewardsAfter(k: nat, n: nat): int
    decreases n
  {
    if n == 0 then 0 else Reward(k + 1) + RewardsAfter(k + 1, n - 1)
  }

  /** The streak a check-in on `from` builds on: the current one if the last
      check-in was the day before, none otherwise. */
  function CarriedStreak(c: Checkin, from: int): nat
  {
    if c.last == Some(from - 1) then c.streak else 0
  }

  /** One accepted check-in, in terms of the streak it carries over: the streak
      grows by one from the carried value and the balance by that streak's reward. */
  lemma CheckinStep(s: Store, userId: UserId, day: int, txId: string)
    requires userId != "" && userId in s.users && s.users[userId].checkin.last != Some(day)
    ensures var s1 := CheckIn(s, userId, day, txId).store;
      var k := CarriedStreak(s.users[userId].checkin, day);
      && OthersUnchanged(s, s1, userId)
      && userId in s1.users
      && s1.users[userId].balance == s.users[userId].balance + Reward(k + 1)
      && s1.users[userId].checkin == Checkin(Some(day), k + 1)
  {
  }

  /** Checking in on `n` consecutive days never gets refused, extends the streak
      by exactly `n` and credits exactly the rewards of the streak values passed. */
  lemma ConsecutiveCheckins(s: Store, userId: UserId, from: int, n: nat, txId: string)
    requires userId != "" && userId in s.users
    requires s.users[userId].checkin.last != Some(from)
    ensures var s' := CheckinRun(s, userId, from, n, txId);
      && OthersUnchanged(s, s', userId)
      && s'.users[userId].balance == s.users[userId].balance + RewardsAfter(CarriedStreak(s.users[userId].checkin, from), n)
      && (n > 0 ==> s'.users[userId].checkin == Checkin(Some(from + n - 1), CarriedStreak(s.users[userId].checkin, from) + n))
    decreases n
  {
    RunKeepsOthers(s, userId, from, n, txId);
    RunBalance(s, userId, from, n, txId);
    RunStreak(s, userId, from, n, txId);
  }

  /** The balance part of `ConsecutiveCheckins`. */
  lemma {:induction false} RunBalance(s: Store, userId: UserId, from: int, n: nat, txId: string)
    requires userId != "" && userId in s.users
    requires s.users[userId].checkin.last != Some(from)
    ensures var s' := CheckinRun(s, userId, from, n, txId);
      && userId in s'.users
      && s'.users[userId].balance == s.users[userId].balance + RewardsAfter(CarriedStreak(s.users[userId].checkin, from), n)
    decreases n
  {
    if n > 0 {
      CheckinStep(s, userId, from, txId);
      RunBalance(CheckIn(s, userId, from, txId).store, userId, from + 1, n - 1, txId);
    }
  }

  /** The streak part of `ConsecutiveCheckins`. */
  lemma {:induction false} RunStreak(s: Store, userId: UserId, from: int, n: nat, txId: string)
    requires userId != "" && userId in s.users
    requires s.users[userId].checkin.last != Some(from)
    ensures var s' := CheckinRun(s, userId, from, n, txId);
      && userId in s'.users
      && (n > 0 ==> s'.users[userId].checkin == Checkin(Some(from + n - 1), CarriedStreak(s.users[userId].checkin, from) + n))
    decreases n
  {
    if n > 0 {
      CheckinStep(s, userId, from, txId);
      RunStreak(CheckIn(s, userId, from, txId).store, userId, from + 1, n - 1, txId);
    }
  }

  /** A run of check-ins by `userId` changes no other user and removes no user. */
  lemma {:induction false} RunKeepsOthers(s: Store, userId: UserId, from: int, n: nat, txId: string)
    ensures OthersUnchanged(s, CheckinRun(s, userId, from, n, txId), userId)
    decreases n
  {
    if n > 0 {
      var s1 := CheckIn(s, userId, from, txId).store;
      RunKeepsOthers(s1, userId, from + 1, n - 1, txId);
      OthersUnchangedTransitive(s, s1, CheckinRun(s1, userId, from + 1, n - 1, txId), userId);
    }
  }

  /** Requests to the handler as written by `userId` on `n` consecutive days starting at day `from`. */
  function CheckinRunAsWritten(s: Store, userId: UserId, from: int, n: nat, txId: string): Store
    decreases n
  {
    if n == 0 then s else CheckinRunAsWritten(CheckInAsWritten(s, userId, from, txId).store, userId, from + 1, n - 1, txId)
  }

  /** With the handler as written, any number of daily check-ins leaves the
      store as it was: no reward is paid, and on no day does the status query
      report a check-in that was not there before. */
  lemma {:induction false} AsWrittenNeverChecksIn(s: Store, userId: UserId, from: int, n: nat, txId: string)
    ensures CheckinRunAsWritten(s, userId, from, n, txId) == s
    ensures forall d :: CheckinStatus(CheckinRunAsWritten(s, userId, from, n, txId), userId, d) == CheckinStatus(s, userId, d)
    decreases n
  {
    if n > 0 {
      AsWrittenNeverChecksIn(CheckInAsWritten(s, userId, from, txId).store, userId, from + 1, n - 1, txId);
    }
  }

  /** A fresh week of daily check-ins ends on a seven-day streak and pays six
      daily rewards and one weekly reward. */
  lemma FreshWeek(s: Store, userId: UserId, from: int, txId: string)
    requires userId != "" && userId in s.users
    requires s.users[userId].checkin.last != Some(from) && s.users[userId].checkin.last != Some(from - 1)
    ensures userId in CheckinRun(s, userId, from, Week, txId).users
    ensures CheckinRun(s, userId, from, Week, txId).users[userId].checkin.streak == Week
    ensures CheckinRun(s, userId, from, Week, txId).users[userId].balance == s.users[userId].balance + 6 * DailyReward + WeeklyReward
  {
    ConsecutiveCheckins(s, userId, from, Week, txId);
    WeekRewards();
  }

  /** Streak values one to seven pay 50 each, except the seventh, which pays 500. */
  lemma WeekRewards()
    ensures RewardsAfter(0, Week) == 6 * DailyReward + WeeklyReward
  {
  }
}

=== FILE: gifts.dfy ===
/** Gift-code redemption: a code that is still active credits its amount to
    the redeeming user once and is then marked used. */
module Gifts {
  import opened Outcomes
  import opened Ledger

  datatype Receipt = Receipt(amount: int, newBalance: int)

  /** `userId` redeems gift code `code`; `txId` is the generated transaction id. */
  function Redeem(s: Store, userId: UserId, code: string, txId: string, today: int): (st: Step<Receipt>)
    ensures st.result.Ok? <==>
      && userId != "" && code != ""
      && code in s.giftCodes && s.giftCodes[code].status == Active
      && userId in s.users
    ensures userId == "" || code == "" ==> st.result == Err(InvalidRequest)
    ensures userId != "" && code != "" && code !in s.giftCodes ==> st.result == Err(InvalidGiftCode)
    ensures userId != "" && code != "" && code in s.giftCodes && s.giftCodes[code].status != Active ==> st.result == Err(GiftCodeUsed)
    ensures userId != "" && code != "" && code in s.giftCodes && s.giftCodes[code].status == Active && userId !in s.users ==>
      st.result == Err(ServerError)
    ensures st.result.Err? ==> st.store == s
    ensures st.store.(users := s.users, giftCodes := s.giftCodes, transactions := s.transactions) == s
    ensures st.result.Ok? ==>
      var amount := s.giftCodes[code].amount;
      && OthersUnchanged(s, st.store, userId)
      && st.store.users[userId].balance == s.users[userId].balance + amount
      && st.store.users[userId].(balance := 0) == s.users[userId].(balance := 0)
      && st.result.value == Receipt(amount, st.store.users[userId].balance)
      && st.store.giftCodes == s.giftCodes[code := GiftCode(amount, Used, Some(userId))]
      && st.store.transactions == s.transactions[userId := TxsOf(s, userId) + [Tx(txId, KindGiftCode, amount, today, None, None, None, Some(code))]]
  {
    if userId == "" || code == "" then Step(Err(InvalidRequest), s)
    else if code !in s.giftCodes then Step(Err(InvalidGiftCode), s)
    else
      var g := s.giftCodes[code];
      if g.status != Active then Step(Err(GiftCodeUsed), s)
      // a missing user reads as null and its balance lookup throws before any write
      else if userId !in s.users then Step(Err(ServerError), s)
      else
        var u := s.users[userId];
        var credited := s.(users := s.users[userId := u.(balance := u.balance + g.amount)]);
        var marked := credited.(giftCodes := credited.giftCodes[code := g.(status := Used, usedBy := Some(userId))]);
        Step(Ok(Receipt(g.amount, u.balance + g.amount)),
             Record(marked, userId, Tx(txId, KindGiftCode, g.amount, today, None, None, None, Some(code))))
  }

  /** A code pays out once: redeeming it again, by the same or any other user,
      is refused as used and changes nothing. */
  lemma SingleUse(s: Store, userId: UserId, code: string, tx1: string, other: UserId, tx2: string, today: int)
    requires Redeem(s, userId, code, tx1, today).result.Ok?
    requires other != ""
    ensures var s1 := Redeem(s, userId, code, tx1, today).store;
      && Redeem(s1, other, code, tx2, today).result == Err(GiftCodeUsed)
      && Redeem(s1, other, code, tx2, today).store == s1
  {
  }
}

=== FILE: investments.dfy ===
/** Buying a plan: the price comes off the spendable balance and an active
    investment record is opened for the plan's whole term. */
module Investments {
  import opened Outcomes
  import opened Ledger
  import opened Plans

  /** The answer to a successful purchase. */
  datatype Receipt = Receipt(investmentId: string, newBalance: int)

  /** The investments a user holds; none when the user has no entry. */
  function HoldingsOf(s: Store, uid: UserId): map<string, Investment>
  {
    if uid in s.investments then s.investments[uid] else map[]
  }

  /** `userId` buys plan `planId`; `invId` and `txId` are the generated ids. */
  function Purchase(s: Store, userId: UserId, planId: string, invId: string, txId: string, today: int): (st: Step<Receipt>)
    ensures st.result.Ok? <==>
      && userId != "" && planId != "" && planId in PurchaseCatalog
      && userId in s.users && s.users[userId].balance >= PurchaseCatalog[planId].price
    ensures userId == "" || planId == "" ==> st.result == Err(InvalidRequest)
    ensures userId != "" && planId != "" && planId !in PurchaseCatalog ==> st.result == Err(PlanNotFound)
    ensures userId != "" && planId in PurchaseCatalog && userId !in s.users ==> st.result == Err(UserNotFound)
    ensures userId != "" && planId in PurchaseCatalog && userId in s.users && s.users[userId].balance < PurchaseCatalog[planId].price ==>
      st.result == Err(InsufficientBalance)
    ensures st.result.Err? ==> st.store == s
    ensures st.store.(users := s.users, investments := s.investments, transactions := s.transactions) == s
    ensures st.result.Ok? ==> HoldingsOf(st.store, userId).Keys == HoldingsOf(s, userId).Keys + {invId}
    ensures st.result.Ok? ==> st.store.investments == s.investments[userId := HoldingsOf(st.store, userId)]
    ensures st.result.Ok? ==>
      var plan := PurchaseCatalog[planId];
      var inv := HoldingsOf(st.store, userId)[invId];
      && OthersUnchanged(s, st.store, userId)
      && st.store.users[userId].balance == s.users[userId].balance - plan.price >= 0
      && st.store.users[userId].(balance := 0) == s.users[userId].(balance := 0)
      && st.result.value == Receipt(invId, st.store.users[userId].balance)
      && (forall i :: i in HoldingsOf(s, userId) && i != invId ==> HoldingsOf(st.store, userId)[i] == HoldingsOf(s, userId)[i])
      && inv.status == Active
      && inv.userId == userId && inv.planId == planId && inv.planName == plan.name
      && inv.amount == plan.price
      && inv.daysRemaining == plan.duration
      && inv.totalEarned == 0
      && inv.id == invId && inv.dailyIncome == plan.dailyIncome && inv.totalIncome == plan.totalIncome
      && inv.endDay - inv.startDay == plan.duration && inv.startDay == today
      && st.store.transactions == s.transactions[userId := TxsOf(s, userId) + [Tx(txId, KindInvestment, plan.price, today, Some(Completed), Some(planId), None, None)]]
  {
    if userId == "" || planId == "" then Step(Err(InvalidRequest), s)
    else match FindPlan(planId)
      case None => Step(Err(PlanNotFound), s)
      case Some(plan) =>
        if userId !in s.users then Step(Err(UserNotFound), s)
        else
          var u := s.users[userId];
          if u.balance < plan.price then Step(Err(InsufficientBalance), s)
          else
            var inv := Investment(invId, userId, planId, plan.name, plan.price, plan.dailyIncome, plan.totalIncome,
                                  today, today + plan.duration, Active, plan.duration, 0);
            var debited := s.(users := s.users[userId := u.(balance := u.balance - plan.price)]);
            var held := debited.(investments := debited.investments[userId := HoldingsOf(s, userId)[invId := inv]]);
            Step(Ok(Receipt(invId, u.balance - plan.price)), Record(held, userId, Tx(txId, KindInvestment, plan.price, today, Some(Completed), Some(planId), None, None)))
  }
}

=== FILE: laws.dfy ===
/** Laws that tie the handlers together: no handler drives a balance below
    zero, check-ins and gift codes show up in the income totals while
    withdrawals and purchases do not, and a registration with a referral code
    adds one level-one member to each referrer's team statistics. */
module Laws {
  import opened Outcomes
  import opened Ledger
  import Withdrawals
  import Recharges
  import Investments
  import Plans
  import Checkins
  import Gifts
  import Registration
  import Reports

  /** The state every handler keeps: no negative balance, and every amount a
      handler may credit back (withdrawal refunds, gift codes) is non-negative. */
  predicate Healthy(s: Store)
  {
    && Solvent(s)
    && (forall w :: w in s.withdrawals && s.withdrawals[w].Withdrawal? ==> s.withdrawals[w].amount >= 0)
    && (forall c :: c in s.giftCodes ==> s.giftCodes[c].amount >= 0)
  }

  lemma WithdrawalKeepsHealthy(s: Store, userId: UserId, amount: int, bankDetails: string, wdId: string, txId: string, today: int)
    requires Healthy(s)
    ensures Healthy(Withdrawals.RequestWithdrawal(s, userId, amount, bankDetails, wdId, txId, today).store)
  {
  }

  lemma ResolutionKeepsHealthy(s: Store, wdId: string, status: string)
    requires Healthy(s)
    ensures Healthy(Withdrawals.ProcessWithdrawal(s, wdId, status).store)
  {
  }

  /** Approval credits whatever amount the operator sends, so it keeps balances
      non-negative only for a non-negative amount. */
  lemma ApprovalKeepsHealthy(s: Store, rechargeId: string, userId: UserId, amount: int, txId: string, today: int)
    requires Healthy(s) && amount >= 0
    ensures Healthy(Recharges.ApproveRecharge(s, rechargeId, userId, amount, txId, today).store)
  {
  }

  lemma RechargeRequestKeepsHealthy(s: Store, userId: UserId, amount: int, paymentMethod: string, transactionRef: string, rechargeId: string, today: int)
    requires Healthy(s)
    ensures Healthy(Recharges.RequestRecharge(s, userId, amount, paymentMethod, transactionRef, rechargeId, today).store)
  {
  }

  lemma PurchaseKeepsHealthy(s: Store, userId: UserId, planId: string, invId: string, txId: string, today: int)
    requires Healthy(s)
    ensures Healthy(Investments.Purchase(s, userId, planId, invId, txId, today).store)
  {
  }

  lemma CheckinKeepsHealthy(s: Store, userId: UserId, today: int, txId: string)
    requires Healthy(s)
    ensures Healthy(Checkins.CheckIn(s, userId, today, txId).store)
  {
  }

  lemma RedeemKeepsHealthy(s: Store, userId: UserId, code: string, txId: string, today: int)
    requires Healthy(s)
    ensures Healthy(Gifts.Redeem(s, userId, code, txId, today).store)
  {
  }

  lemma RegisterKeepsHealthy(s: Store, name: string, phone: string, password: string, referralCode: string,
                             userId: UserId, ownCode: string, today: int)
    requires Healthy(s)
    ensures Healthy(Registration.Register(s, name, phone, password, referralCode, userId, ownCode, today).store)
  {
  }

  /** A check-in's reward is income of the day it is made. */
  lemma CheckinIsIncome(s: Store, userId: UserId, today: int, txId: string)
    requires Checkins.CheckIn(s, userId, today, txId).result.Ok?
    ensures var st := Checkins.CheckIn(s, userId, today, txId);
      && Reports.Income(TxsOf(st.store, userId), today).totalIncome
         == Reports.Income(TxsOf(s, userId), today).totalIncome + st.result.value.reward
      && Reports.Income(TxsOf(st.store, userId), today).todayIncome
         == Reports.Income(TxsOf(s, userId), today).todayIncome + st.result.value.reward
  {
    var st := Checkins.CheckIn(s, userId, today, txId);
    var r := st.result.value;
    Reports.IncomeAfterAppend(TxsOf(s, userId), Tx(txId, KindCheckin, r.reward, today, None, None, Some(r.streak), None), today);
  }

  /** A redeemed gift code's amount is income of the day it is redeemed. */
  lemma GiftIsIncome(s: Store, userId: UserId, code: string, txId: string, today: int)
    requires Gifts.Redeem(s, userId, code, txId, today).result.Ok?
    ensures var st := Gifts.Redeem(s, userId, code, txId, today);
      Reports.Income(TxsOf(st.store, userId), today).totalIncome
        == Reports.Income(TxsOf(s, userId), today).totalIncome + s.giftCodes[code].amount
  {
    Reports.IncomeAfterAppend(TxsOf(s, userId), Tx(txId, KindGiftCode, s.giftCodes[code].amount, today, None, None, None, Some(code)), today);
  }

  /** A withdrawal request is not income. */
  lemma WithdrawalIsNotIncome(s: Store, userId: UserId, amount: int, bankDetails: string, wdId: string,
                              txId: string, today: int, day: int)
    ensures Reports.Income(TxsOf(Withdrawals.RequestWithdrawal(s, userId, amount, bankDetails, wdId, txId, today).store, userId), day)
         == Reports.Income(TxsOf(s, userId), day)
  {
    if Withdrawals.RequestWithdrawal(s, userId, amount, bankDetails, wdId, txId, today).result.Ok? {
      Reports.IncomeAfterAppend(TxsOf(s, userId), Tx(txId, KindWithdrawalRequest, amount, today, Some(Pending), None, None, None), day);
    }
  }

  /** A plan purchase is not income. */
  lemma PurchaseIsNotIncome(s: Store, userId: UserId, planId: string, invId: string, txId: string, today: int, day: int)
    ensures Reports.Income(TxsOf(Investments.Purchase(s, userId, planId, invId, txId, today).store, userId), day)
         == Reports.Income(TxsOf(s, userId), day)
  {
    if Investments.Purchase(s, userId, planId, invId, txId, today).result.Ok? {
      var price := Plans.PurchaseCatalog[planId].price;
      Reports.IncomeAfterAppend(TxsOf(s, userId), Tx(txId, KindInvestment, price, today, Some(Completed), Some(planId), None, None), day);
    }
  }

  /** A registration with a referral code credits the existing user that comes
      first, in key order, among the holders of the code (the new user included):
      its team count and its level-one team statistic each rise by one. */
  lemma ReferralCounted(s: Store, name: string, phone: string, password: string, referralCode: string,
                        userId: UserId, ownCode: string, today: int, referrer: UserId)
    requires Registration.Validate(name, phone, password).None? && !Registration.PhoneTaken(s.users, phone)
    requires referralCode != "" && referrer in s.users && referrer != userId
    requires s.users[referrer].referralCode == referralCode
    requires forall v :: v in s.users && v != userId && s.users[v].referralCode == referralCode ==> Registration.KeyLe(referrer, v)
    requires ownCode == referralCode ==> Registration.KeyLe(referrer, userId)
    requires userId !in Registration.TeamOf(s, referrer)
    ensures var s' := Registration.Register(s, name, phone, password, referralCode, userId, ownCode, today).store;
      && referrer in s'.users
      && s'.users[referrer].teamCount == s.users[referrer].teamCount + 1
      && Reports.CountLevels(Registration.TeamOf(s', referrer))
         == Reports.CountLevels(Registration.TeamOf(s, referrer)).(level1 := Reports.CountLevels(Registration.TeamOf(s, referrer)).level1 + 1)
  {
    var newbie := Registration.NewUser(userId, name, phone, password, ownCode, referralCode, today);
    var saved := s.users[userId := newbie];
    var found := Registration.ReferrerOf(saved, referralCode);
    assert found.Some?;
    var r := found.value;
    assert Registration.KeyLe(r, referrer);
    assert Registration.KeyLe(referrer, r) by {
      if r == userId {
        assert ownCode == referralCode;
      }
    }
    Registration.KeyLeAntisymmetric(r, referrer);
    Reports.NewMemberCounted(Registration.TeamOf(s, referrer), userId, TeamEntry(userId, name, phone, today, 1));
  }
}

=== FILE: ledger.dfy ===
/** The records kept by the API and the in-memory store that stands in for the
    database tree (users, teams, recharges, withdrawals, investments, gift codes,
    per-user transaction logs). Dates are whole day numbers. */
module Ledger {
  import opened Outcomes

  type UserId = string

  // Status words written into the records.
  const Active := "active"
  const Pending := "pending"
  const Rejected := "rejected"
  const Approved := "approved"
  const Used := "used"
  const Completed := "completed"
  const Admin := "admin"

  // Transaction types written into, or read from, a user's log.
  const KindWithdrawalRequest := "withdrawal_request"
  const KindInvestment := "investment"
  const KindCheckin := "checkin"
  const KindGiftCode := "gift_code"
  const KindRecharge := "recharge"
  const KindDailyIncome := "daily_income"
  const KindCommission := "commission"

  /** The daily check-in sub-record of a user. */
  datatype Checkin = Checkin(last: Option<int>, streak: nat)

  datatype User = User(
    id: UserId,
    name: string,
    phone: string,
    password: string,
    referralCode: string,
    referredBy: Option<string>,
    balance: int,
    rechargeBalance: int,
    withdrawn: int,
    totalEarnings: int,
    joinDay: int,
    status: string,
    level: int,
    teamCount: int,
    referralLink: string,
    bankDetails: Option<string>,
    checkin: Checkin)

  /** An entry of a referrer's team, keyed by the referred user's id. */
  datatype TeamEntry = TeamEntry(userId: UserId, name: string, phone: string, joinDay: int, level: int)

  /** A recharge request. A status update addressed to an id that holds no
      request creates a record holding only the written fields. */
  datatype Recharge =
    | Recharge(userId: UserId, amount: int, paymentMethod: string, transactionId: Option<string>,
               day: int, status: string, approvedBy: Option<string>)
    | RechargeStub(status: string, approvedBy: Option<string>)

  /** A withdrawal request; the stub is what a status update of a missing id leaves behind. */
  datatype Withdrawal =
    | Withdrawal(userId: UserId, userName: string, amount: int, bankDetails: string,
                 day: int, status: string, processedBy: Option<string>)
    | WithdrawalStub(status: string, processedBy: Option<string>)

  datatype Investment = Investment(
    id: string,
    userId: UserId,
    planId: string,
    planName: string,
    amount: int,
    dailyIncome: int,
    totalIncome: int,
    startDay: int,
    endDay: int,
    status: string,
    daysRemaining: int,
    totalEarned: int)

  datatype GiftCode = GiftCode(amount: int, status: string, usedBy: Option<UserId>)

  /** One entry of a user's transaction log. */
  datatype Tx = Tx(id: string, kind: string, amount: int, day: int,
                   status: Option<string>, planId: Option<string>,
                   streak: Option<nat>, giftCode: Option<string>)

  datatype Store = Store(
    users: map<UserId, User>,
    teams: map<UserId, map<UserId, TeamEntry>>,
    recharges: map<string, Recharge>,
    withdrawals: map<string, Withdrawal>,
    investments: map<UserId, map<string, Investment>>,
    giftCodes: map<string, GiftCode>,
    transactions: map<UserId, seq<Tx>>)

  /** What a handler answered together with the store it left behind. */
  datatype Step<+T> = Step(result: Result<T>, store: Store)

  /** A user's transaction log; a user without one has an empty log. */
  function TxsOf(s: Store, uid: UserId): seq<Tx>
  {
    if uid in s.transactions then s.transactions[uid] else []
  }

  /** Appends one entry to a user's log and touches nothing else. */
  function Record(s: Store, uid: UserId, tx: Tx): (s': Store)
    ensures TxsOf(s', uid) == TxsOf(s, uid) + [tx]
    ensures forall v :: v != uid ==> TxsOf(s', v) == TxsOf(s, v)
    ensures s'.users == s.users && s'.teams == s.teams && s'.recharges == s.recharges
    ensures s'.withdrawals == s.withdrawals && s'.investments == s.investments
    ensures s'.giftCodes == s.giftCodes
  {
    s.(transactions := s.transactions[uid := TxsOf(s, uid) + [tx]])
  }

  /** `s'` holds the same users as `s`, and every user other than `uid` is unchanged. */
  predicate OthersUnchanged(s: Store, s': Store, uid: UserId)
  {
    && s'.users.Keys == s.users.Keys
    && forall v :: v in s.users && v != uid ==> s'.users[v] == s.users[v]
  }

  /** Leaving the other users alone composes over a sequence of steps. */
  lemma OthersUnchangedTransitive(s: Store, s': Store, s'': Store, uid: UserId)
    requires OthersUnchanged(s, s', uid) && OthersUnchanged(s', s'', uid)
    ensures OthersUnchanged(s, s'', uid)
  {
  }

  /** Every user's spendable balance is non-negative. */
  predicate Solvent(s: Store)
  {
    forall u :: u in s.users ==> s.users[u].balance >= 0
  }
}

=== FILE: outcomes.dfy ===
/** Response shapes shared by every handler of the API: an optional value, the
    refusals a handler can answer with, and a success-or-refusal result. */
module Outcomes {

  datatype Option<+T> = None | Some(value: T)

  /** The refusals the handlers answer with. One kind can stand for several
      messages: `InvalidRequest` covers every "missing field" and "amount below
      the minimum" answer. */
  datatype Error =
    | InvalidRequest       // a required request field is missing, or the amount is below the minimum
    | MissingFields        // registration: name, phone or password absent
    | InvalidPhone         // registration: not exactly ten decimal digits
    | ShortPassword        // registration: fewer than six characters
    | PhoneRegistered      // registration: the phone number is already in use
    | UserNotFound
    | PlanNotFound
    | InsufficientBalance
    | AlreadyCheckedIn
    | InvalidGiftCode      // no such gift code
    | GiftCodeUsed         // the code exists but is not active
    | ServerError          // an exception inside the handler, answered with status 500

  datatype Result<+T> = Ok(value: T) | Err(error: Error)
}

=== FILE: plans.dfy ===
/** The fixed plan catalog. The API holds two copies: the one it shows to
    clients (with currency and category) and the one the purchase handler
    charges from. */
module Plans {
  import opened Outcomes

  datatype Category = Daily | Vip

  datatype ShownPlan = ShownPlan(
    id: string, name: string, price: int, currency: string,
    duration: int, dailyIncome: int, totalIncome: int, category: Category)

  datatype Plan = Plan(price: int, dailyIncome: int, totalIncome: int, duration: int, name: string)

  const Rupee := "\U{20B9}"
  const Dollar := "$"
  const Yen := "\U{00A5}"

  /** The catalog returned by the plan listing. */
  const ShownCatalog: map<string, ShownPlan> := map[
    "wind_1" := ShownPlan("wind_1", "Wind 1", 800, Rupee, 22, 279, 6138, Daily),
    "wind_2" := ShownPlan("wind_2", "Wind 2", 560, Rupee, 9, 1447, 13023, Daily),
    "wind_3" := ShownPlan("wind_3", "Wind 3", 1000, Rupee, 10, 3900, 39000, Daily),
    "wind_4" := ShownPlan("wind_4", "Wind 4", 1600, Rupee, 6, 4730, 28380, Daily),
    "wind_5" := ShownPlan("wind_5", "Wind 5", 1600, Dollar, 8, 7350, 58800, Vip),
    "wind_6" := ShownPlan("wind_6", "Wind 6", 2800, Yen, 4, 17687, 70748, Vip),
    "wind_7" := ShownPlan("wind_7", "Wind 7", 5000, Dollar, 1, 32600, 32600, Vip),
    "wind_power_a" := ShownPlan("wind_power_a", "Wind Power - A", 450, Yen, 3, 1830, 5490, Daily),
    "wind_power_b" := ShownPlan("wind_power_b", "Wind Power - B", 900, Yen, 4, 3900, 15600, Daily)
  ]

  /** The catalog the purchase handler looks plans up in. */
  const PurchaseCatalog: map<string, Plan> := map[
    "wind_1" := Plan(800, 279, 6138, 22, "Wind 1"),
    "wind_2" := Plan(560, 1447, 13023, 9, "Wind 2"),
    "wind_3" := Plan(1000, 3900, 39000, 10, "Wind 3"),
    "wind_4" := Plan(1600, 4730, 28380, 6, "Wind 4"),
    "wind_5" := Plan(1600, 7350, 58800, 8, "Wind 5"),
    "wind_6" := Plan(2800, 17687, 70748, 4, "Wind 6"),
    "wind_7" := Plan(5000, 32600, 32600, 1, "Wind 7"),
    "wind_power_a" := Plan(450, 1830, 5490, 3, "Wind Power - A"),
    "wind_power_b" := Plan(900, 3900, 15600, 4, "Wind Power - B")
  ]

  /** Looks a plan up by id; `None` for an unknown id. */
  function FindPlan(planId: string): (p: Option<Plan>)
    ensures p.Some? <==> planId in PurchaseCatalog
    ensures p.Some? ==> p.value == PurchaseCatalog[planId]
    ensures p.Some? ==> p.value.price > 0 && p.value.duration > 0 && p.value.dailyIncome > 0
    ensures p.Some? ==> p.value.totalIncome == p.value.dailyIncome * p.value.duration
  {
    PlanLaws();
    if planId in PurchaseCatalog then Some(PurchaseCatalog[planId]) else None
  }

  /** Every purchasable plan pays its total income as its daily income over its
      whole term, and costs and lasts a positive amount. */
  lemma PlanLaws()
    ensures forall id :: id in PurchaseCatalog ==>
      && PurchaseCatalog[id].price > 0
      && PurchaseCatalog[id].duration > 0
      && PurchaseCatalog[id].dailyIncome > 0
      && PurchaseCatalog[id].totalIncome == PurchaseCatalog[id].dailyIncome * PurchaseCatalog[id].duration
  {
  }

  /** The shown and the charged catalogs list the same plans with the same
      economics, and each shown plan carries its own id. */
  lemma CatalogsAgree()
    ensures ShownCatalog.Keys == PurchaseCatalog.Keys
    ensures forall id :: id in ShownCatalog ==>
      && ShownCatalog[id].id == id
      && ShownCatalog[id].name == PurchaseCatalog[id].name
      && ShownCatalog[id].price == PurchaseCatalog[id].price
      && ShownCatalog[id].duration == PurchaseCatalog[id].duration
      && ShownCatalog[id].dailyIncome == PurchaseCatalog[id].dailyIncome
      && ShownCatalog[id].totalIncome == PurchaseCatalog[id].totalIncome
  {
  }
}

=== FILE: recharges.dfy ===
/** Recharge requests and their approval. A request only files a pending
    record; an operator's approval credits the amount it is given to both the
    spendable balance and the recharge total of the user it is given. The
    approval does not check the request's status, nor that its user or amount
    match the request. */
module Recharges {
  import opened Outcomes
  import opened Ledger

  const MinRecharge := 100
  const DefaultPaymentMethod := "manual"

  /** Files a recharge request; an empty payment method means the default one and
      an empty transaction reference means none. */
  function RequestRecharge(s: Store, userId: UserId, amount: int, paymentMethod: string,
                           transactionRef: string, rechargeId: string, today: int): (st: Step<string>)
    ensures st.result.Ok? <==> userId != "" && amount >= MinRecharge
    ensures st.result.Err? ==> st.result.error == InvalidRequest && st.store == s
    ensures st.store.(recharges := s.recharges) == s
    ensures st.result.Ok? ==>
      && st.result.value == rechargeId
      && st.store.recharges.Keys == s.recharges.Keys + {rechargeId}
      && (forall r :: r in s.recharges && r != rechargeId ==> st.store.recharges[r] == s.recharges[r])
      && st.store.recharges[rechargeId].Recharge?
      && st.store.recharges[rechargeId].userId == userId
      && st.store.recharges[rechargeId].amount == amount
      && st.store.recharges[rechargeId].status == Pending
      && st.store.recharges[rechargeId].approvedBy.None?
      && st.store.recharges[rechargeId].paymentMethod == (if paymentMethod == "" then DefaultPaymentMethod else paymentMethod)
      && (transactionRef == "" <==> st.store.recharges[rechargeId].transactionId.None?)
      && (transactionRef != "" ==> st.store.recharges[rechargeId].transactionId == Some(transactionRef))
      && st.store.recharges[rechargeId].day == today
  {
    if userId == "" || amount < MinRecharge then Step(Err(InvalidRequest), s)
    else
      var via := if paymentMethod == "" then DefaultPaymentMethod else paymentMethod;
      var reference := if transactionRef == "" then None else Some(transactionRef);
      var r := Recharge(userId, amount, via, reference, today, Pending, None);
      Step(Ok(rechargeId), s.(recharges := s.recharges[rechargeId := r]))
  }

  /** An operator approves recharge `rechargeId`, crediting `amount` to `userId`.
      The status is written first; if the user does not exist, reading the user
      throws and nothing is credited. */
  function ApproveRecharge(s: Store, rechargeId: string, userId: UserId, amount: int,
                           txId: string, today: int): (st: Step<()>)
    ensures rechargeId in st.store.recharges && st.store.recharges[rechargeId].status == Approved
    ensures st.store.recharges[rechargeId].approvedBy == Some(Admin)
    ensures st.store.recharges.Keys == s.recharges.Keys + {rechargeId}
    ensures forall r :: r in s.recharges && r != rechargeId ==> st.store.recharges[r] == s.recharges[r]
    ensures rechargeId in s.recharges ==>
      st.store.recharges[rechargeId].(status := "", approvedBy := None) == s.recharges[rechargeId].(status := "", approvedBy := None)
    ensures rechargeId !in s.recharges ==> st.store.recharges[rechargeId] == RechargeStub(Approved, Some(Admin))
    ensures st.store.(users := s.users, recharges := s.recharges, transactions := s.transactions) == s
    ensures st.result.Ok? <==> userId in s.users
    ensures st.result.Err? ==>
      st.result.error == ServerError && st.store.users == s.users && st.store.transactions == s.transactions
    ensures st.result.Ok? ==>
      && OthersUnchanged(s, st.store, userId)
      && st.store.users[userId].balance == s.users[userId].balance + amount
      && st.store.users[userId].rechargeBalance == s.users[userId].rechargeBalance + amount
      && st.store.users[userId].(balance := 0, rechargeBalance := 0) == s.users[userId].(balance := 0, rechargeBalance := 0)
      && st.store.transactions == s.transactions[userId := TxsOf(s, userId) + [Tx(txId, KindRecharge, amount, today, Some(Completed), None, None, None)]]
  {
    var stamped := if rechargeId in s.recharges
      then s.recharges[rechargeId].(status := Approved, approvedBy := Some(Admin))
      else RechargeStub(Approved, Some(Admin));
    var s1 := s.(recharges := s.recharges[rechargeId := stamped]);
    if userId !in s1.users then Step(Err(ServerError), s1)
    else
      var u := s1.users[userId];
      var credited := s1.(users := s1.users[userId := u.(balance := u.balance + amount, rechargeBalance := u.rechargeBalance + amount)]);
      Step(Ok(()), Record(credited, userId, Tx(txId, KindRecharge, amount, today, Some(Completed), None, None, None)))
  }

  /** Approving the same recharge twice credits its amount twice. */
  lemma ApproveTwiceCreditsTwice(s: Store, rechargeId: string, userId: UserId, amount: int,
                                 tx1: string, tx2: string, today: int)
    requires userId in s.users
    ensures var s2 := ApproveRecharge(ApproveRecharge(s, rechargeId, userId, amount, tx1, today).store,
                                      rechargeId, userId, amount, tx2, today);
      && s2.result.Ok?
      && userId in s2.store.users
      && s2.store.users[userId].balance == s.users[userId].balance + 2 * amount
      && s2.store.users[userId].rechargeBalance == s.users[userId].rechargeBalance + 2 * amount
  {
  }
}

=== FILE: registration.dfy ===
/** Registration: field validation, the initial user record, and the
    bookkeeping on the referrer's side (team count and team entry). */
module Registration {
  import opened Outcomes
  import opened Ledger

  const MinPasswordLength := 6
  const PhoneLength := 10
  const ReferralLinkPrefix := "https://happyinvest.vercel.app/register.html?ref="

  /** The characters JavaScript's string trimming removes: white space and line terminators. */
  predicate IsSpace(c: char)
  {
    || c == '\t' || c == '\n' || c == '\U{000B}' || c == '\U{000C}' || c == '\r' || c == ' '
    || c == '\U{00A0}' || c == '\U{1680}' || ('\U{2000}' <= c <= '\U{200A}')
    || c == '\U{2028}' || c == '\U{2029}' || c == '\U{202F}' || c == '\U{205F}'
    || c == '\U{3000}' || c == '\U{FEFF}'
  }

  /** Drops leading white space: the result is the suffix of `s` that starts at
      its first non-space character. */
  function TrimStart(s: string): (r: string)
    ensures |r| <= |s| && r == s[|s| - |r|..]
    ensures forall i :: 0 <= i < |s| - |r| ==> IsSpace(s[i])
    ensures |r| > 0 ==> !IsSpace(r[0])
  {
    if |s| > 0 && IsSpace(s[0]) then TrimStart(s[1..]) else s
  }

  /** Drops trailing white space: the result is the prefix of `s` that ends at
      its last non-space character. */
  function TrimEnd(s: string): (r: string)
    ensures |r| <= |s| && r == s[..|r|]
    ensures forall i :: |r| <= i < |s| ==> IsSpace(s[i])
    ensures |r| > 0 ==> !IsSpace(r[|r| - 1])
  {
    if |s| > 0 && IsSpace(s[|s| - 1]) then TrimEnd(s[..|s| - 1]) else s
  }

  /** Removes white space from both ends. */
  function Trim(s: string): string
  {
    TrimEnd(TrimStart(s))
  }

  /** Trimming a trimmed name changes nothing. */
  lemma {:induction false} TrimIdempotent(s: string)
    ensures Trim(Trim(s)) == Trim(s)
  {
  }

  /** The length JavaScript reports for a string: characters outside the basic
      multilingual plane count as two UTF-16 code units. */
  function Utf16Length(s: string): (n: nat)
    ensures |s| <= n <= 2 * |s|
    ensures (forall i :: 0 <= i < |s| ==> s[i] as int <= 0xFFFF) ==> n == |s|
  {
    if |s| == 0 then 0 else (if s[0] as int > 0xFFFF then 2 else 1) + Utf16Length(s[1..])
  }

  predicate IsDigit(c: char)
  {
    '0' <= c <= '9'
  }

  /** Exactly ten characters, all decimal digits. */
  predicate ValidPhone(phone: string)
  {
    |phone| == PhoneLength && forall i :: 0 <= i < |phone| ==> IsDigit(phone[i])
  }

  /** Some registered user already has this phone number. */
  predicate PhoneTaken(users: map<UserId, User>, phone: string)
  {
    exists u :: u in users && users[u].phone == phone
  }

  /** The field checks, in the order the handler makes them; an empty field counts as absent. */
  function Validate(name: string, phone: string, password: string): (e: Option<Error>)
    ensures e.None? <==> name != "" && ValidPhone(phone) && Utf16Length(password) >= MinPasswordLength
    ensures name == "" || phone == "" || password == "" ==> e == Some(MissingFields)
    ensures name != "" && phone != "" && password != "" && !ValidPhone(phone) ==> e == Some(InvalidPhone)
    ensures name != "" && ValidPhone(phone) && password != "" && Utf16Length(password) < MinPasswordLength ==>
      e == Some(ShortPassword)
  {
    if name == "" || phone == "" || password == "" then Some(MissingFields)
    else if |phone| != PhoneLength || exists i :: 0 <= i < |phone| && !IsDigit(phone[i]) then Some(InvalidPhone)
    else if Utf16Length(password) < MinPasswordLength then Some(ShortPassword)
    else None
  }

  /** The record a newly registered user starts with. */
  function NewUser(userId: UserId, name: string, phone: string, password: string,
                   ownCode: string, referralCode: string, today: int): User
  {
    User(userId, Trim(name), phone, password, ownCode,
         if referralCode == "" then None else Some(referralCode),
         0, 0, 0, 0, today, Active, 1, 0, ReferralLinkPrefix + ownCode, None, Checkin(None, 0))
  }

  /** A user's team; empty when the user has none. */
  function TeamOf(s: Store, uid: UserId): map<UserId, TeamEntry>
  {
    if uid in s.teams then s.teams[uid] else map[]
  }

  /** Code-point order on keys: the order in which the database lists children
      whose ordering values tie. A proper prefix comes first. */
  predicate KeyLe(a: string, b: string)
  {
    |a| == 0 || (|b| > 0 && (a[0] < b[0] || (a[0] == b[0] && KeyLe(a[1..], b[1..]))))
  }

  lemma {:induction false} KeyLeReflexive(a: string)
    ensures KeyLe(a, a)
  {
    if |a| > 0 {
      KeyLeReflexive(a[1..]);
    }
  }

  lemma {:induction false} KeyLeTotal(a: string, b: string)
    ensures KeyLe(a, b) || KeyLe(b, a)
  {
    if |a| > 0 && |b| > 0 && a[0] == b[0] {
      KeyLeTotal(a[1..], b[1..]);
    }
  }

  lemma {:induction false} KeyLeAntisymmetric(a: string, b: string)
    requires KeyLe(a, b) && KeyLe(b, a)
    ensures a == b
  {
    if |a| > 0 {
      KeyLeAntisymmetric(a[1..], b[1..]);
      assert a == [a[0]] + a[1..] && b == [b[0]] + b[1..];
    }
  }

  lemma {:induction false} KeyLeTransitive(a: string, b: string, c: string)
    requires KeyLe(a, b) && KeyLe(b, c)
    ensures KeyLe(a, c)
  {
    if |a| > 0 && a[0] == b[0] && b[0] == c[0] {
      KeyLeTransitive(a[1..], b[1..], c[1..]);
    }
  }

  /** The users whose referral code is `code`. */
  function Holders(users: map<UserId, User>, code: string): set<UserId>
  {
    set u | u in users && users[u].referralCode == code
  }

  /** `m` belongs to `ids` and comes first among them in key order. */
  predicate IsFirst(m: UserId, ids: set<UserId>)
  {
    m in ids && forall v :: v in ids ==> KeyLe(m, v)
  }

  /** Every non-empty set of ids has exactly one first id in key order. */
  lemma {:induction false} FirstExists(ids: set<UserId>)
    requires ids != {}
    ensures exists m :: IsFirst(m, ids)
    ensures forall a, b :: IsFirst(a, ids) && IsFirst(b, ids) ==> a == b
    decreases |ids|
  {
    forall a, b | IsFirst(a, ids) && IsFirst(b, ids)
      ensures a == b
    {
      KeyLeAntisymmetric(a, b);
    }
    var x :| x in ids;
    if ids == {x} {
      KeyLeReflexive(x);
      assert IsFirst(x, ids);
    } else {
      var rest := ids - {x};
      FirstExists(rest);
      var m :| IsFirst(m, rest);
      KeyLeTotal(m, x);
      if KeyLe(m, x) {
        assert IsFirst(m, ids);
      } else {
        forall v | v in ids
          ensures KeyLe(x, v)
        {
          if v == x {
            KeyLeReflexive(x);
          } else {
            KeyLeTransitive(x, m, v);
          }
        }
        assert IsFirst(x, ids);
      }
    }
  }

  /** The first user, in key order, whose referral code is `code`; none when no
      user holds it. The lookup lists the holders in that order and the
      handler's loop over them stops after the first one (its callback is
      asynchronous, and a returned promise ends the enumeration). */
  function FirstHolder(users: map<UserId, User>, code: string): (r: Option<UserId>)
    ensures r.None? <==> forall v :: v in users ==> users[v].referralCode != code
    ensures r.Some? ==> r.value in users && users[r.value].referralCode == code
    ensures r.Some? ==> forall v :: v in users && users[v].referralCode == code ==> KeyLe(r.value, v)
  {
    var holders := Holders(users, code);
    if holders == {} then
      assert forall v :: v in users ==> users[v].referralCode != code by {
        forall v | v in users ensures users[v].referralCode != code {
          assert users[v].referralCode == code ==> v in holders;
        }
      }
      None
    else
      FirstExists(holders);
      var m :| IsFirst(m, holders);
      Some(m)
  }

  /** The referrer a registration with `code` credits, looked up in `users`
      (which already holds the new user); none without a code. */
  function ReferrerOf(users: map<UserId, User>, code: string): Option<UserId>
  {
    if code == "" then None else FirstHolder(users, code)
  }

  /** The referrer-side effect of a registration with `code`: the first holder
      of the code counts one more member and lists `entry` in its team. */
  function CreditReferrer(s: Store, code: string, entry: TeamEntry): (s': Store)
    ensures s'.(users := s.users, teams := s.teams) == s
    ensures s'.users.Keys == s.users.Keys
    ensures ReferrerOf(s.users, code).None? ==> s' == s
    ensures ReferrerOf(s.users, code).Some? ==>
      var r := ReferrerOf(s.users, code).value;
      && s'.users == s.users[r := s.users[r].(teamCount := s.users[r].teamCount + 1)]
      && TeamOf(s', r) == TeamOf(s, r)[entry.userId := entry]
      && (forall v :: v != r ==> TeamOf(s', v) == TeamOf(s, v))
  {
    match ReferrerOf(s.users, code)
    case None => s
    case Some(r) =>
      s.(users := s.users[r := s.users[r].(teamCount := s.users[r].teamCount + 1)],
         teams := s.teams[r := TeamOf(s, r)[entry.userId := entry]])
  }

  /** After `nu` is saved under `userId`, a code finds no referrer exactly when
      it is empty or neither `nu` nor any other user holds it. */
  lemma NoReferrerAfterSave(users: map<UserId, User>, userId: UserId, nu: User, code: string)
    ensures ReferrerOf(users[userId := nu], code).None? <==>
      code == "" || (nu.referralCode != code && forall v :: v in users && v != userId ==> users[v].referralCode != code)
  {
    var saved := users[userId := nu];
    if code != "" {
      assert ReferrerOf(saved, code) == FirstHolder(saved, code);
      if ReferrerOf(saved, code).None? {
        assert saved[userId].referralCode != code;
        forall v | v in users && v != userId
          ensures users[v].referralCode != code
        {
          assert saved[v] == users[v];
        }
      } else {
        var r := ReferrerOf(saved, code).value;
        assert r in saved && saved[r].referralCode == code;
        assert r == userId || (r in users && users[r].referralCode == code);
      }
    }
  }

  /** The new user's record after saving `nu` under `userId` and crediting the
      first holder of `code`: `nu`, with one more team member when it is that holder. */
  lemma EnrolNewUser(s: Store, userId: UserId, nu: User, code: string, entry: TeamEntry)
    ensures var s' := CreditReferrer(s.(users := s.users[userId := nu]), code, entry);
      var referrer := ReferrerOf(s.users[userId := nu], code);
      && s'.users.Keys == s.users.Keys + {userId}
      && s'.users[userId] == nu.(teamCount := nu.teamCount + if referrer == Some(userId) then 1 else 0)
  {
  }

  /** The existing users after saving `nu` under `userId` and crediting the
      first holder of `code`: only that holder changes, by one more team member. */
  lemma EnrolOldUsers(s: Store, userId: UserId, nu: User, code: string, entry: TeamEntry)
    ensures var s' := CreditReferrer(s.(users := s.users[userId := nu]), code, entry);
      var referrer := ReferrerOf(s.users[userId := nu], code);
      && (forall v :: v in s.users && v != userId && referrer != Some(v) ==> s'.users[v] == s.users[v])
      && (referrer.Some? && referrer.value != userId ==>
            s'.users[referrer.value] == s.users[referrer.value].(teamCount := s.users[referrer.value].teamCount + 1))
  {
  }

  /** The teams after saving `nu` under `userId` and crediting the first holder of `code`. */
  lemma EnrolTeams(s: Store, userId: UserId, nu: User, code: string, entry: TeamEntry)
    ensures var s' := CreditReferrer(s.(users := s.users[userId := nu]), code, entry);
      var referrer := ReferrerOf(s.users[userId := nu], code);
      && (referrer.Some? ==> TeamOf(s', referrer.value) == TeamOf(s, referrer.value)[entry.userId := entry])
      && (forall v :: referrer != Some(v) ==> TeamOf(s', v) == TeamOf(s, v))
  {
  }

  /** Saves `nu` under `userId` and then credits the first holder of `code`,
      which may be `nu` itself. */
  function Enrol(s: Store, userId: UserId, nu: User, code: string, entry: TeamEntry): (s': Store)
    ensures s'.(users := s.users, teams := s.teams) == s
    ensures s'.users.Keys == s.users.Keys + {userId}
    ensures var referrer := ReferrerOf(s.users[userId := nu], code);
      && s'.users[userId] == nu.(teamCount := nu.teamCount + if referrer == Some(userId) then 1 else 0)
      && (forall v :: v in s.users && v != userId && referrer != Some(v) ==> s'.users[v] == s.users[v])
      && (referrer.Some? && referrer.value != userId ==>
            s'.users[referrer.value] == s.users[referrer.value].(teamCount := s.users[referrer.value].teamCount + 1))
      && (referrer.Some? ==> TeamOf(s', referrer.value) == TeamOf(s, referrer.value)[entry.userId := entry])
      && (forall v :: referrer != Some(v) ==> TeamOf(s', v) == TeamOf(s, v))
  {
    EnrolNewUser(s, userId, nu, code, entry);
    EnrolOldUsers(s, userId, nu, code, entry);
    EnrolTeams(s, userId, nu, code, entry);
    CreditReferrer(s.(users := s.users[userId := nu]), code, entry)
  }

  datatype Registered = Registered(userId: UserId, referralCode: string)

  /** Registers a user; `userId` and `ownCode` are the generated id and referral
      code, `referralCode` the code the user signed up with ("" for none). The
      referrer lookup runs after the new user is saved, so the new user can be
      the referrer found. */
  function Register(s: Store, name: string, phone: string, password: string, referralCode: string,
                    userId: UserId, ownCode: string, today: int): (st: Step<Registered>)
    ensures st.result.Ok? <==> Validate(name, phone, password).None? && !PhoneTaken(s.users, phone)
    ensures Validate(name, phone, password).Some? ==> st.result == Err(Validate(name, phone, password).value)
    ensures Validate(name, phone, password).None? && PhoneTaken(s.users, phone) ==> st.result == Err(PhoneRegistered)
    ensures st.result.Err? ==> st.store == s
    ensures st.store.(users := s.users, teams := s.teams) == s
    ensures st.result.Ok? ==>
      && st.result.value == Registered(userId, ownCode)
      && st.store.users.Keys == s.users.Keys + {userId}
    ensures st.result.Ok? ==>
      var u := st.store.users[userId];
      var referrer := ReferrerOf(s.users[userId := NewUser(userId, name, phone, password, ownCode, referralCode, today)], referralCode);
      && u.balance == 0 && u.rechargeBalance == 0 && u.withdrawn == 0 && u.totalEarnings == 0
      && u.status == Active && u.level == 1 && u.checkin == Checkin(None, 0)
      && u.phone == phone && u.password == password && u.name == Trim(name) && u.referralCode == ownCode
      && u.id == userId && u.referralLink == ReferralLinkPrefix + ownCode
      && u.joinDay == today && u.bankDetails.None?
      && u.referredBy == (if referralCode == "" then None else Some(referralCode))
      && u.teamCount == (if referrer == Some(userId) then 1 else 0)
    ensures st.result.Ok? ==>
      var referrer := ReferrerOf(s.users[userId := NewUser(userId, name, phone, password, ownCode, referralCode, today)], referralCode);
      && (referrer.None? <==>
            referralCode == "" || (ownCode != referralCode && forall v :: v in s.users && v != userId ==> s.users[v].referralCode != referralCode))
      && (forall v :: v in s.users && v != userId && referrer != Some(v) ==> st.store.users[v] == s.users[v])
      && (referrer.Some? && referrer.value != userId ==>
            st.store.users[referrer.value] == s.users[referrer.value].(teamCount := s.users[referrer.value].teamCount + 1))
      && (referrer.Some? ==>
            TeamOf(st.store, referrer.value) == TeamOf(s, referrer.value)[userId := TeamEntry(userId, name, phone, today, 1)])
      && (forall v :: referrer != Some(v) ==> TeamOf(st.store, v) == TeamOf(s, v))
  {
    match Validate(name, phone, password)
    case Some(e) => Step(Err(e), s)
    case None =>
      if PhoneTaken(s.users, phone) then Step(Err(PhoneRegistered), s)
      else
        var nu := NewUser(userId, name, phone, password, ownCode, referralCode, today);
        NoReferrerAfterSave(s.users, userId, nu, referralCode);
        Step(Ok(Registered(userId, ownCode)), Enrol(s, userId, nu, referralCode, TeamEntry(userId, name, phone, today, 1)))
  }
}

=== FILE: reports.dfy ===
/** Read-side aggregations: income totals and filtered income records over a
    user's transaction log, and member counts per level over a user's team. */
module Reports {
  import opened Ledger

  /** The transaction types the income totals count. */
  predicate IsIncome(kind: string)
  {
    kind == KindDailyIncome || kind == KindCommission || kind == KindGiftCode || kind == KindCheckin
  }

  datatype IncomeStats = IncomeStats(todayIncome: int, totalIncome: int)

  /** Income of the counted types in `txs`: in all, and on day `today`. */
  function Income(txs: seq<Tx>, today: int): (r: IncomeStats)
    ensures (forall i :: 0 <= i < |txs| ==> !IsIncome(txs[i].kind)) ==> r == IncomeStats(0, 0)
    ensures (forall i :: 0 <= i < |txs| ==> txs[i].amount >= 0) ==> 0 <= r.todayIncome <= r.totalIncome
  {
    if |txs| == 0 then IncomeStats(0, 0)
    else
      var rest := Income(txs[1..], today);
      var tx := txs[0];
      if IsIncome(tx.kind)
      then IncomeStats(rest.todayIncome + (if tx.day == today then tx.amount else 0), rest.totalIncome + tx.amount)
      else rest
  }

  /** Whether a record passes the income-records filter `query`; an unrecognised
      or absent query passes everything. */
  predicate Matches(query: string, kind: string)
  {
    if query == "daily" then kind == KindDailyIncome
    else if query == "commission" then kind == KindCommission
    else if query == "gift" then kind == KindGiftCode || kind == KindCheckin
    else true
  }

  /** The records of `txs` that pass `query`, in their original order. */
  function IncomeRecords(txs: seq<Tx>, query: string): (r: seq<Tx>)
    ensures |r| <= |txs|
    ensures (forall i :: 0 <= i < |txs| ==> Matches(query, txs[i].kind)) ==> r == txs
    ensures forall t :: multiset(r)[t] == if Matches(query, t.kind) then multiset(txs)[t] else 0
  {
    if |txs| == 0 then []
    else
      assert txs == [txs[0]] + txs[1..];
      if Matches(query, txs[0].kind) then [txs[0]] + IncomeRecords(txs[1..], query)
      else IncomeRecords(txs[1..], query)
  }

  /** A record is listed exactly when it is in the log and passes the filter. */
  lemma RecordsAreTheMatches(txs: seq<Tx>, query: string)
    ensures forall t :: t in IncomeRecords(txs, query) <==> t in txs && Matches(query, t.kind)
  {
  }

  /** The sum of the amounts of `txs`. */
  function Sum(txs: seq<Tx>): int
  {
    if |txs| == 0 then 0 else txs[0].amount + Sum(txs[1..])
  }

  /** The income total is exactly what the three income-record filters list:
      daily income, commissions, and gift codes with check-ins. */
  lemma {:induction false} IncomeIsFilteredRecords(txs: seq<Tx>, today: int)
    ensures Income(txs, today).totalIncome
         == Sum(IncomeRecords(txs, "daily")) + Sum(IncomeRecords(txs, "commission")) + Sum(IncomeRecords(txs, "gift"))
  {
    if |txs| > 0 {
      IncomeIsFilteredRecords(txs[1..], today);
    }
  }

  /** Appending one record to a log raises the totals by its amount when it is
      income (and, for today's total, dated today), and leaves them alone otherwise. */
  lemma {:induction false} IncomeAfterAppend(txs: seq<Tx>, tx: Tx, today: int)
    ensures Income(txs + [tx], today).totalIncome == Income(txs, today).totalIncome + (if IsIncome(tx.kind) then tx.amount else 0)
    ensures Income(txs + [tx], today).todayIncome
         == Income(txs, today).todayIncome + (if IsIncome(tx.kind) && tx.day == today then tx.amount else 0)
  {
    if |txs| > 0 {
      assert (txs + [tx])[1..] == txs[1..] + [tx];
      IncomeAfterAppend(txs[1..], tx, today);
    }
  }

  datatype TeamStats = TeamStats(level1: nat, level2: nat, level3: nat)

  /** The members of `team` at `level`. */
  function AtLevel(team: map<UserId, TeamEntry>, level: int): set<UserId>
  {
    set m | m in team && team[m].level == level
  }

  /** Member counts of a team by level one, two and three; members at any
      other level are counted nowhere. */
  function CountLevels(team: map<UserId, TeamEntry>): (r: TeamStats)
    ensures r.level1 + r.level2 + r.level3 <= |team|
    ensures (forall m :: m in team ==> 1 <= team[m].level <= 3) ==> r.level1 + r.level2 + r.level3 == |team|
    ensures team == map[] ==> r == TeamStats(0, 0, 0)
  {
    var a, b, c := AtLevel(team, 1), AtLevel(team, 2), AtLevel(team, 3);
    assert |a + b| == |a| + |b|;
    assert |a + b + c| == |a + b| + |c|;
    assert a + b + c <= team.Keys;
    assert team.Keys == (a + b + c) + (team.Keys - (a + b + c));
    assert |team.Keys| == |a + b + c| + |team.Keys - (a + b + c)|;
    assert (forall m :: m in team ==> 1 <= team[m].level <= 3) ==> a + b + c == team.Keys;
    TeamStats(|a|, |b|, |c|)
  }

  /** Adding member `m` at entry `e` to a team adds `m` to the members at
      `e`'s level and changes no other level's members. */
  lemma AtLevelAfterAdd(team: map<UserId, TeamEntry>, m: UserId, e: TeamEntry, level: int)
    requires m !in team
    ensures |AtLevel(team[m := e], level)| == |AtLevel(team, level)| + (if e.level == level then 1 else 0)
  {
    if e.level == level {
      assert AtLevel(team[m := e], level) == AtLevel(team, level) + {m};
    } else {
      assert AtLevel(team[m := e], level) == AtLevel(team, level);
    }
  }

  /** Adding a member raises the count of its own level by one, when that level
      is one, two or three, and leaves the other counts; a member at any other
      level changes no count. With the empty team's zero counts, this fixes
      every count of every team. */
  lemma NewMemberCounted(team: map<UserId, TeamEntry>, m: UserId, e: TeamEntry)
    requires m !in team
    ensures var before, after := CountLevels(team), CountLevels(team[m := e]);
      after == TeamStats(before.level1 + (if e.level == 1 then 1 else 0),
                         before.level2 + (if e.level == 2 then 1 else 0),
                         before.level3 + (if e.level == 3 then 1 else 0))
  {
    AtLevelAfterAdd(team, m, e, 1);
    AtLevelAfterAdd(team, m, e, 2);
    AtLevelAfterAdd(team, m, e, 3);
  }
}

=== FILE: withdrawals.dfy ===
/** Withdrawal requests and their resolution by an operator. A request debits
    the spendable balance at once and counts the amount as withdrawn; a
    rejection puts both back. The resolution does not look at the request's
    current status, so resolving the same request twice acts twice. */
module Withdrawals {
  import opened Outcomes
  import opened Ledger

  const MinWithdrawal := 100

  /** The answer to a successful request: the new request's id and the balance left. */
  datatype Receipt = Receipt(withdrawalId: string, newBalance: int)

  /** Handles a withdrawal request of `amount` by `userId`; `wdId` and `txId`
      are the ids the handler generates and `today` is the current day. */
  function RequestWithdrawal(s: Store, userId: UserId, amount: int, bankDetails: string,
                             wdId: string, txId: string, today: int): (st: Step<Receipt>)
    ensures st.result.Ok? <==>
      userId != "" && amount >= MinWithdrawal && userId in s.users && s.users[userId].balance >= amount
    ensures userId == "" || amount < MinWithdrawal ==> st.result == Err(InvalidRequest)
    ensures userId != "" && amount >= MinWithdrawal && userId !in s.users ==> st.result == Err(UserNotFound)
    ensures userId != "" && amount >= MinWithdrawal && userId in s.users && s.users[userId].balance < amount ==>
      st.result == Err(InsufficientBalance)
    ensures st.result.Err? ==> st.store == s
    ensures st.store.(users := s.users, withdrawals := s.withdrawals, transactions := s.transactions) == s
    ensures st.result.Ok? ==>
      && OthersUnchanged(s, st.store, userId)
      && st.store.users[userId].balance == s.users[userId].balance - amount >= 0
      && st.store.users[userId].withdrawn == s.users[userId].withdrawn + amount
      && st.store.users[userId].(balance := 0, withdrawn := 0) == s.users[userId].(balance := 0, withdrawn := 0)
      && st.result.value == Receipt(wdId, st.store.users[userId].balance)
      && st.store.withdrawals == s.withdrawals[wdId := Withdrawal(userId, s.users[userId].name, amount, bankDetails, today, Pending, None)]
      && st.store.transactions == s.transactions[userId := TxsOf(s, userId) + [Tx(txId, KindWithdrawalRequest, amount, today, Some(Pending), None, None, None)]]
  {
    if userId == "" || amount < MinWithdrawal then Step(Err(InvalidRequest), s)
    else if userId !in s.users then Step(Err(UserNotFound), s)
    else
      var u := s.users[userId];
      if u.balance < amount then Step(Err(InsufficientBalance), s)
      else
        var debited := s.(users := s.users[userId := u.(balance := u.balance - amount, withdrawn := u.withdrawn + amount)]);
        var filed := debited.(withdrawals := debited.withdrawals[wdId := Withdrawal(userId, u.name, amount, bankDetails, today, Pending, None)]);
        var logged := Record(filed, userId, Tx(txId, KindWithdrawalRequest, amount, today, Some(Pending), None, None, None));
        Step(Ok(Receipt(wdId, u.balance - amount)), logged)
  }

  /** The record an operator's status update leaves at `wdId`: the status and the
      operator are written over an existing request, or make up a new partial record. */
  function Stamped(s: Store, wdId: string, status: string): Withdrawal
  {
    if wdId in s.withdrawals then s.withdrawals[wdId].(status := status, processedBy := Some(Admin))
    else WithdrawalStub(status, Some(Admin))
  }

  /** True when a rejection of `wdId` in `s` finds a full request whose user exists. */
  predicate Refundable(s: Store, wdId: string)
  {
    wdId in s.withdrawals && s.withdrawals[wdId].Withdrawal? && s.withdrawals[wdId].userId in s.users
  }

  /** An operator resolves withdrawal `wdId` with `status`. Only "rejected" moves
      money: the amount goes back to the balance and comes off the withdrawn total. */
  function ProcessWithdrawal(s: Store, wdId: string, status: string): (st: Step<()>)
    ensures wdId in st.store.withdrawals && st.store.withdrawals[wdId].status == status
    ensures st.store.withdrawals[wdId].processedBy == Some(Admin)
    ensures forall w :: w in s.withdrawals && w != wdId ==> w in st.store.withdrawals && st.store.withdrawals[w] == s.withdrawals[w]
    ensures st.store.withdrawals.Keys == s.withdrawals.Keys + {wdId}
    ensures wdId in s.withdrawals ==> st.store.withdrawals[wdId].(status := "", processedBy := None) == s.withdrawals[wdId].(status := "", processedBy := None)
    ensures wdId !in s.withdrawals ==> st.store.withdrawals[wdId] == WithdrawalStub(status, Some(Admin))
    ensures st.store.(users := s.users, withdrawals := s.withdrawals) == s
    ensures st.result.Ok? <==> status != Rejected || Refundable(s, wdId)
    ensures st.result.Err? ==> st.result.error == ServerError && st.store.users == s.users
    ensures status != Rejected ==> st.store.users == s.users
    ensures status == Rejected && Refundable(s, wdId) ==>
      var w := s.withdrawals[wdId];
      && OthersUnchanged(s, st.store, w.userId)
      && st.store.users[w.userId].balance == s.users[w.userId].balance + w.amount
      && st.store.users[w.userId].withdrawn == s.users[w.userId].withdrawn - w.amount
      && st.store.users[w.userId].(balance := 0, withdrawn := 0) == s.users[w.userId].(balance := 0, withdrawn := 0)
  {
    var stamped := s.(withdrawals := s.withdrawals[wdId := Stamped(s, wdId, status)]);
    if status != Rejected then Step(Ok(()), stamped)
    else
      var w := stamped.withdrawals[wdId];
      if w.WithdrawalStub? || w.userId !in stamped.users then
        // the re-read record has no user, or names a user that does not exist:
        // reading the user's balance throws after the status was written
        Step(Err(ServerError), stamped)
      else
        var u := stamped.users[w.userId];
        Step(Ok(()), stamped.(users := stamped.users[w.userId := u.(balance := u.balance + w.amount, withdrawn := u.withdrawn - w.amount)]))
  }

  /** A request followed by its rejection gives the user back exactly the record
      they had before the request: same balance, same withdrawn total. */
  lemma RejectRestoresUser(s: Store, userId: UserId, amount: int, bankDetails: string,
                           wdId: string, txId: string, today: int)
    requires RequestWithdrawal(s, userId, amount, bankDetails, wdId, txId, today).result.Ok?
    ensures ProcessWithdrawal(RequestWithdrawal(s, userId, amount, bankDetails, wdId, txId, today).store, wdId, Rejected).result.Ok?
    ensures ProcessWithdrawal(RequestWithdrawal(s, userId, amount, bankDetails, wdId, txId, today).store, wdId, Rejected).store.users == s.users
  {
  }

  /** A request followed by any resolution other than rejection keeps the debit:
      balance and withdrawn total stay where the request left them. */
  lemma OtherResolutionKeepsDebit(s: Store, userId: UserId, amount: int, bankDetails: string,
                                  wdId: string, txId: string, today: int, status: string)
    requires RequestWithdrawal(s, userId, amount, bankDetails, wdId, txId, today).result.Ok?
    requires status != Rejected
    ensures userId in ProcessWithdrawal(RequestWithdrawal(s, userId, amount, bankDetails, wdId, txId, today).store, wdId, status).store.users
    ensures ProcessWithdrawal(RequestWithdrawal(s, userId, amount, bankDetails, wdId, txId, today).store, wdId, status).store.users[userId].balance
            == s.users[userId].balance - amount
    ensures ProcessWithdrawal(RequestWithdrawal(s, userId, amount, bankDetails, wdId, txId, today).store, wdId, status).store.users[userId].withdrawn
            == s.users[userId].withdrawn + amount
  {
  }

  /** The resolution does not check that the request is still pending, so a
      request rejected twice is refunded twice. */
  lemma RejectTwiceRefundsTwice(s: Store, wdId: string)
    requires Refundable(s, wdId)
    ensures var w := s.withdrawals[wdId];
      var s2 := ProcessWithdrawal(ProcessWithdrawal(s, wdId, Rejected).store, wdId, Rejected);
      && s2.result.Ok?
      && w.userId in s2.store.users
      && s2.store.users[w.userId].balance == s.users[w.userId].balance + 2 * w.amount
      && s2.store.users[w.userId].withdrawn == s.users[w.userId].withdrawn - 2 * w.amount
  {
  }
}
